=== FILE: README.md ===
# Bitquery stream supervisors in Dafny

This project models the two reconnect supervisors of the Bitquery
observability client:

- `run_stream` in `sub_test.py` keeps one network's GraphQL-over-websocket
  subscription alive. It counts the token entries of every result on that
  network's counters and on the generic counters tagged `network=<name>`.
  `main` in the same file runs one supervisor for Solana and one for Binance
  Smart Chain.
- `main` in `test.py` is a single-network supervisor. It counts one message
  per result on the untagged generic counters.

Both are the same loop, `while not shutdown_event.is_set(): connect;
consume; close; back off`. They differ in what one iteration does. The model
therefore has three parts:

- `Supervision.Loop` is the loop skeleton, parameterised by the iteration.
  Its lemmas say what the loop guarantees given what every iteration
  guarantees.
- `MultiNetwork.Iterate` and `SingleNetwork.Iterate` are the two iterations.
  Their contracts are what the loop lemmas ask for.
- `MultiNetwork.RunStream` and `SingleNetwork.RunMain` are the two
  supervisors, with the loop lemmas instantiated for them.

The environment of a run is a `Script`:

- a finite list of `Attempt`s, one per transport created. Each attempt says
  whether the connect fails, and otherwise which results the subscription
  delivers and whether it then ends or raises. It also says whether
  `transport.close()` raises.
- the shutdown signal. The flag is set once and never cleared, so every
  check of it is numbered, and checks from number `signal` on see it set.

A run ends in one of three ways:

- `Stopped`: the loop head saw the flag.
- `Crashed`: an exception escaped the loop.
- `ScriptExhausted`: the finite script ran out while the real loop would go
  on reconnecting.

The flag checks of one `run_stream` iteration are, in order: one after each
counted result, then one after closing the transport, which decides the
backoff. In `test.py` there is one check after each result, and the backoff
is unconditional.

Payloads are JSON values (`Payloads.Value`). The entry extraction of
`sub_test.py:190-194` is modelled with Python's semantics:

- falsy data becomes `{}`;
- a non-dict yields `[]`;
- `.get` on a `Trading` that is not a dict raises;
- `len` of a value without a length raises.

The exception is caught by the subscription handler. It counts one error and
ends that subscription.

Metrics are a map from series (counter set, kind, optional `network`
attribute) to counts:

- `MultiNetwork.Record` is the pair of `add` calls the loop makes for one
  increment.
- `MultiNetwork.Emit` is the meter a run's totals leave.
- `MultiNetwork.Gather` is `asyncio.gather`: it sums the meters of the two
  independent runs.

## Model

| member | source | states |
|---|---|---|
| Payloads.Data | sub_test.py:190 | the extraction starts from `data` for an execution result, else from the item itself; a falsy value becomes `{}` and a truthy one passes unchanged, for either kind of result |
| Payloads.Len | sub_test.py:195 | Python `len`: defined exactly for lists, strings and dicts; it gives the number of items, characters or keys |
| Payloads.EntryCount | sub_test.py:190-197 | a non-dict payload, a missing `Trading` or a missing `Tokens` counts 0; otherwise it counts `len(Tokens)`; the extraction raises exactly when `Trading` is present but not a dict, or `Tokens` is present but has no length |
| Consumption.FirstFault | sub_test.py:186-206 | the index of the first result whose counting raises: every earlier one counts, and the one at that index raises |
| Consumption.Consume | sub_test.py:185-206 | the inner loop, in closed form: it drains on the flag exactly when the flag is seen before the first raising result; the number of results consumed; messages are the counts of exactly those results; a subscription error is counted exactly when it did not drain and either a result raised or the stream raised; no check before the last sees the flag |
| Metrics.InstrumentName | sub_test.py:20-31 | every counter is exported under a name in the `bitquery.` namespace |
| Metrics.InstrumentNamesDistinct | sub_test.py:20-31 | the nine counters have nine different names, so each (counter set, kind) pair is one instrument of its own |
| Metrics.Add | sub_test.py:181 | `counter.add(n)` grows one series by n and leaves every other series unchanged |
| Metrics.Merge | sub_test.py:225-228 | both supervisors add to the same counters: each series of the shared meter is the sum of the two |
| Supervision.Loop | sub_test.py:172-221 | the `while not shutdown_event.is_set()` loop runs at most one iteration per scripted attempt, and all of them when the script runs out; LoopShape, LoopCounts, LoopUncut, LoopTotals and the lemmas below carry the rest of its contract |
| Supervision.LoopShape | sub_test.py:172 | the loop never outruns the script; it makes at least one flag check per iteration; it runs an iteration only after its head check found the flag clear; it ends without a crash only through a head check that sees the flag; so a shutdown signalled within the script always ends it |
| Supervision.LoopCounts | sub_test.py:178-217 | if every iteration closes once, counts a connection exactly when the connect succeeds, and counts at most one error (exactly one for a failed connect), then the run closes once per iteration, counts one connection per successful connect, and has between one error per failed connect and one per iteration |
| Supervision.LoopUncut | sub_test.py:172-221 | if every iteration not cut short by the flag or by a crash adds its attempt's uncut totals, then a run that never sees the flag adds up those totals over the whole script |
| Supervision.LoopBackoffWhileClear | sub_test.py:219-221 | if an iteration backs off exactly when its last check finds the flag clear, the run backs off after every iteration but possibly the last, and after all of them if it never sees the flag |
| Supervision.LoopCloseEscapes | test.py:132-135 | if an iteration crashes exactly when its close raises, and backs off unless it crashes, the run crashes exactly at the first attempt made whose close raises, and backs off after every other iteration |
| Supervision.LoopNeverCrashes | sub_test.py:208-217 | if no iteration lets an exception escape, the run never crashes |
| Supervision.LoopNoReconnect | sub_test.py:172 | once the loop has ended, no later attempt is made: replacing everything after the attempts made leaves the run unchanged |
| Supervision.LoopIgnoresClose | sub_test.py:214-217 | if no iteration depends on whether its close raises, neither does the run |
| Supervision.LoopLastTurn | sub_test.py:172-221 | a run with iterations is the loop over all attempts but the last one made, which runs out of script with the flag clear, followed by that last iteration; a run without iterations counts nothing |
| Supervision.LoopTotals | sub_test.py:172-221 | if every iteration not cut short by the flag or by a crash adds its attempt's uncut totals, then every run, however it ends, totals the uncut totals of all attempts but the last one made plus what that last iteration adds |
| MultiNetwork.SelectCounters | sub_test.py:158-170 | "Solana" selects the Solana counters, "Binance Smart Chain" the BSC counters, and any other name the generic counters |
| MultiNetwork.Uncut | sub_test.py:178-221 | what one attempt counts when run to completion: one close, one backoff, a connection exactly for a successful connect, exactly one error and no message for a failed connect; a connected attempt counts the entries of the results before the first payload that raises, and exactly one error when a payload or the stream raises, none otherwise |
| MultiNetwork.Iterate | sub_test.py:173-221 | one iteration: it always closes and never crashes; it counts a connection exactly for a successful connect and one error for a failed connect; messages are the entry counts of the results consumed; breaking on the flag is not an error and is never followed by a backoff; it backs off exactly when the check after closing finds the flag clear; if that check is clear, the iteration's totals are its attempt's uncut totals; unless it breaks on the flag, its errors and messages are those uncut totals whatever the check after closing sees; IterateBreaks states when it breaks |
| MultiNetwork.IterateBreaks | sub_test.py:185-200 | an iteration breaks out of its subscription exactly when the flag is seen after a counted result that comes before the first payload that raises, and then right after the first such result: its checks are the results read plus the check after closing |
| MultiNetwork.RunStream | sub_test.py:150-221 | `run_stream` over a script catches every exception of an iteration, so it never crashes; RunStreamStops, RunStreamCounts, RunStreamBacksOff, RunStreamUninterrupted and RunStreamTotals carry the rest of its contract |
| MultiNetwork.RunStreamStops | sub_test.py:172-217 | `run_stream` never crashes; it makes at least one flag check per iteration; it leaves only when its loop head sees the flag; a shutdown signalled within the scripted attempts always stops it |
| MultiNetwork.RunStreamCounts | sub_test.py:178-217 | `run_stream` closes once per iteration; it counts one connection per successful connect; it counts at least one error per failed connect and at most one per iteration (RunStreamTotals pins the exact counts) |
| MultiNetwork.RunStreamBacksOff | sub_test.py:219-221 | `run_stream` backs off after every iteration but possibly the last, and after every iteration while it never sees the flag |
| MultiNetwork.RunStreamTotals | sub_test.py:172-221 | every run of `run_stream`, also one that stops, counts exactly what its attempts but the last one made count when run to completion (one error per failure, every entry up to the first payload that raises) plus what its last iteration counts |
| MultiNetwork.RunStreamUninterrupted | sub_test.py:178-212 | while shutdown is never seen, every failure (connect, stream or payload) counts exactly one error, and every result counts its entries up to the first payload that raises |
| MultiNetwork.NoReconnectAfterShutdown | sub_test.py:199-221 | once `run_stream` has stopped, whatever the transport would do on later attempts, nothing reconnects |
| MultiNetwork.CloseFailuresSwallowed | sub_test.py:213-218 | an exception from `transport.close()` changes nothing: the run equals the run in which every close succeeds |
| MultiNetwork.BatchCounts | sub_test.py:190-195 | a well-formed batch counts exactly its token entries |
| MultiNetwork.BatchSizesAdd | sub_test.py:190-197 | well-formed batches of sizes s1..sN never make the extraction raise, and count s1 + ... + sN messages |
| MultiNetwork.ReconnectThenShutdown | sub_test.py:172-221 | two failed connects, then a stream of two results with three token entries each, the shutdown seen after the first: consumption breaks before the second result, so two errors, one connection, three messages, three closes, no backoff after the shutdown, and the loop stops after three attempts |
| MultiNetwork.Targets | sub_test.py:181-183 | one increment goes to the network's selected counter without attributes and to the generic counter tagged with the network, and to no series of another kind or network |
| MultiNetwork.Record | sub_test.py:195-197 | an increment of n adds n to both target series and changes no other series |
| MultiNetwork.Emit | sub_test.py:155-212 | a run's totals appear on the network's selected counters and on the generic counters tagged with it; every other series reads zero: untagged series of other counter sets, series tagged with another network, and series of the per-network counter sets tagged with this network |
| MultiNetwork.EmitMatchesRecords | sub_test.py:181-212 | recording a run's increments kind by kind, two series per increment, gives exactly the emitted meter |
| MultiNetwork.EmitAdditive | sub_test.py:181-212 | emitting totals at once equals emitting them in parts, so summing a run's increments per kind loses nothing |
| MultiNetwork.Main | sub_test.py:223-228 | `main` runs one supervisor for Solana and one for Binance Smart Chain, each on its own script, and returns exactly when both have stopped; GatherPair and MainKeepsNetworksApart state what the shared counters hold |
| MultiNetwork.Gather | sub_test.py:223-228 | one run per source, each depending only on its own script; gather returns exactly when every supervisor has stopped |
| MultiNetwork.GatherPair | sub_test.py:225-228 | with two supervisors, every series holds the sum of what each one emits |
| MultiNetwork.MainKeepsNetworksApart | sub_test.py:155-170 | the Solana counters and the generic counter tagged "Solana" hold the Solana run's totals, and likewise for Binance Smart Chain; the untagged generic counters stay at zero |
| MultiNetwork.GatherOrderIrrelevant | sub_test.py:225-228 | the order in which the supervisors are started changes no series |
| SingleNetwork.CountsEveryResult | test.py:113-114 | counting one per result never raises, and counts the results |
| SingleNetwork.Uncut | test.py:105-135 | what one attempt counts when run to completion: one close, one backoff, a connection exactly for a successful connect, one error exactly when the connect fails or the stream raises; no message for a failed connect, and one message per delivered result for a connected one |
| SingleNetwork.Iterate | test.py:99-135 | one iteration: it crashes exactly when its close raises, and otherwise always backs off; it closes once; it counts a connection exactly for a successful connect and one error for a failed connect; it counts one message per result received, each followed by one check; breaking on the flag is not an error; if the next check is clear and it did not crash, the iteration's totals are its attempt's uncut totals; unless it breaks on the flag, its errors and messages are those uncut totals, even when its close raises; IterateBreaks states when it breaks |
| SingleNetwork.IterateBreaks | test.py:113-117 | an iteration breaks out of its subscription exactly when the flag is seen after some delivered result, and then right after the first such result: its checks are the results read |
| SingleNetwork.RunMain | test.py:96-135 | `main` over a script leaves through a crash only at the first attempt made whose close raises, and with no raising close among the attempts made otherwise; RunMainEnds, RunMainCounts, RunMainUninterrupted and RunMainTotals carry the rest of its contract |
| SingleNetwork.RunMainEnds | test.py:99-135 | `main` leaves through a head check that sees the flag, or through the first attempt made whose close raises; it backs off after every non-crashing iteration, even on shutdown; a shutdown signalled within the script ends it |
| SingleNetwork.RunMainCounts | test.py:105-133 | `main` closes once per iteration; it counts one connection per successful connect; it counts at least one error per failed connect and at most one per iteration (RunMainTotals pins the exact counts) |
| SingleNetwork.RunMainTotals | test.py:99-135 | every run of `main`, also one that stops or crashes, counts exactly what its attempts but the last one made count when run to completion (one message per result, one error per failed connect or raising stream) plus what its last iteration counts |
| SingleNetwork.RunMainUninterrupted | test.py:105-131 | while shutdown is never seen and every close succeeds, messages are the number of results delivered, and each failed connect or raising stream counts one error |
| SingleNetwork.NoReconnectAfterExit | test.py:99-135 | once `main` has left its loop, through shutdown or a raising close, nothing reconnects |
| SingleNetwork.ReconnectThenShutdown | test.py:99-135 | two failed connects, then one result followed by the shutdown: two errors, one connection, one message whatever the result carries, three closes, and three backoffs |
| SingleNetwork.Record | test.py:114 | n calls of `add(1)` grow the untagged generic series by n and change no other series |
| SingleNetwork.Emit | test.py:20-22 | a run's totals appear on the three untagged generic counters and on no other series |
| SingleNetwork.EmitMatchesRecords | test.py:105-131 | recording a run's increments one by one gives exactly the emitted meter |

## Left out

- OpenTelemetry set-up and export (`sub_test.py:12-31`, `test.py:12-22`) is
  left out. Counters are a map from series to totals; of the instrument
  set-up only the names are kept, in `Metrics.InstrumentName`.
- The transport, URLs, headers and GraphQL documents (`sub_test.py:46-148`,
  `sub_test.py:173-176`, `test.py:41-93`, `test.py:100-103`) are replaced by
  the scripted `Attempt`s.
- The `WebsocketsTransport(...)` constructor runs outside the `try`; an
  exception from it is not modelled.
- Signal handlers and the `asyncio.Event` (`sub_test.py:36-43`,
  `test.py:32-39`) are left out. The flag is modelled only as the numbered
  checks the loop makes.
- Last-message timestamps (`sub_test.py:34`, `sub_test.py:187`, `test.py:30`,
  `test.py:115`) and the three-second sleep duration are left out. A backoff
  is only counted.
- Concurrency of `asyncio.gather` is not modelled. Each supervisor's run
  depends only on its own script and flag checks, and their counter
  increments are summed.
- `BaseException`s such as task cancellation, `print` and the `__main__` entry
  point are left out.
- Payload numbers are integers; fractional JSON numbers are not modelled.
  Either way, `len` of a number raises.
- MultiNetwork.Emit: states the totals of a run, not the order of its
  individual `add` calls. `MultiNetwork.EmitMatchesRecords` connects it to
  the per-increment `Record`.
- MultiNetwork.RunStreamStops: a shutdown signalled within the first
  |attempts| checks is proved to stop the run. The loop makes at least two
  checks per iteration, so this is weaker than what holds.
- MultiNetwork.RunStreamStops, SingleNetwork.RunMainEnds: a subscription that
  stays open without ever yielding a result cannot be expressed, because every
  scripted attempt delivers finitely many results and then ends or raises. The
  flag is checked only after a result (`sub_test.py:199`, `test.py:116`), so
  such a subscription would keep the real loop waiting however the flag is
  set. Both lemmas rely on every scripted stream ending.
- Behaviour of the code worth noting, which the model follows:
  - `test.py:114` counts one message per result, not the batch's element
    count.
  - `test.py:133` calls `close()` without a handler, so a close that raises
    ends `main`.
  - `test.py:135` backs off even when shutting down.
  - `sub_test.py:190-197` treats a malformed payload as a subscription
    error.

=== FILE: consumption.dfy ===
/**
 The inner `async for result in transport.subscribe(...)` loop shared by
 both supervisors: each result is weighed and added to the message counter,
 then the shutdown flag is checked and consumption breaks if it is set. A
 result whose weighing raises, or a stream that raises, ends consumption
 through the inner exception handler.
 */
module Consumption {
  import opened Wrappers
  import opened Payloads
  import opened Lifecycle

  /** How many messages one result counts for; None when counting raises. */
  type Weigh = Result -> Option<nat>

  /** What consuming one subscription yields: the messages counted, whether
      it ended in a (counted) subscription error, whether it stopped because
      the flag was seen set, and how many flag checks it made. */
  datatype Consumed = Consumed(messages: nat, failed: bool, drained: bool, checks: nat)

  /** The index of the first result whose weighing raises, or |rs| if none does. */
  function FirstFault(rs: seq<Result>, w: Weigh): (f: nat)
    ensures f <= |rs|
    ensures forall i :: 0 <= i < f ==> w(rs[i]).Some?
    ensures f < |rs| ==> w(rs[f]).None?
  {
    if |rs| == 0 || w(rs[0]).None? then 0 else 1 + FirstFault(rs[1..], w)
  }

  /** The messages a run of results counts for (results that raise count 0). */
  function Total(rs: seq<Result>, w: Weigh): nat {
    if |rs| == 0 then 0 else w(rs[0]).GetOr(0) + Total(rs[1..], w)
  }

  /** The index of the result after which the flag check first sees the flag
      set, when consumption starts at flag check `clock`. */
  function Lag(signal: nat, clock: nat): nat {
    if clock <= signal then signal - clock else 0
  }

  /** Consumes `rs`, making its flag checks from check number `clock` on.
      With k the index of the result after which the flag is seen and f the
      first result that raises: consumption stops after result k without an
      error when k comes before f; otherwise it counts the f results before
      the fault and fails if there is a fault or the stream raises. */
  function Consume(rs: seq<Result>, ending: Ending, w: Weigh, signal: nat, clock: nat): (c: Consumed)
    ensures c.drained <==> Lag(signal, clock) < FirstFault(rs, w)
    ensures c.checks == if c.drained then Lag(signal, clock) + 1 else FirstFault(rs, w)
    ensures c.checks <= |rs|
    ensures c.messages == Total(rs[..c.checks], w)
    ensures c.failed <==> !c.drained && (FirstFault(rs, w) < |rs| || ending == StreamError)
    ensures c.drained ==> c.checks >= 1 && IsSet(signal, clock + c.checks - 1)
    ensures forall t :: clock <= t < clock + c.checks - 1 ==> !IsSet(signal, t)
    ensures !c.drained ==> forall t :: clock <= t < clock + c.checks ==> !IsSet(signal, t)
    decreases |rs|
  {
    if |rs| == 0 then Consumed(0, ending == StreamError, false, 0)
    else
      match w(rs[0])
      case None => Consumed(0, true, false, 0)
      case Some(n) =>
        if IsSet(signal, clock) then
          assert rs[..1][1..] == [];
          Consumed(n, false, true, 1)
        else
          var rest := Consume(rs[1..], ending, w, signal, clock + 1);
          assert rs[..1 + rest.checks][1..] == rs[1..][..rest.checks];
          Consumed(n + rest.messages, rest.failed, rest.drained, 1 + rest.checks)
  }
}

=== FILE: lifecycle.dfy ===
/**
 The vocabulary shared by both supervisor loops: the scripted transport,
 the shutdown flag as the loop observes it, and the totals a run produces.
 */
module Lifecycle {
  import opened Payloads
  import opened Metrics

  /** How a subscription stream ends once its listed results are delivered. */
  datatype Ending =
    | StreamEnd    // the server completes the subscription
    | StreamError  // the subscription raises

  /** One pass of the reconnect loop as the transport plays it: the connect
      fails, or it succeeds and the subscription delivers `results` and then
      ends as `ending`. `closeRaises` says whether `transport.close()` raises. */
  datatype Attempt =
    | ConnectFail(closeRaises: bool)
    | Connected(results: seq<Result>, ending: Ending, closeRaises: bool)

  /** The environment of one supervisor: what the transport does on each
      attempt, and `signal`, the number of checks of the shutdown flag that
      find it clear before one finds it set. */
  datatype Script = Script(attempts: seq<Attempt>, signal: nat)

  /** Whether check number `t` (counted from 0 over the whole run) sees the
      shutdown flag set. The flag is set once and never cleared, so the
      checks see it clear up to some point and set from then on. */
  predicate IsSet(signal: nat, t: nat) {
    signal <= t
  }

  /** Totals of one run: the three counters, and how often the transport was
      closed and a backoff sleep was taken. */
  datatype Tally = Tally(messages: nat, errors: nat, connections: nat, closes: nat, backoffs: nat) {
    function Plus(o: Tally): Tally {
      Tally(messages + o.messages, errors + o.errors, connections + o.connections,
            closes + o.closes, backoffs + o.backoffs)
    }
  }

  const Zero: Tally := Tally(0, 0, 0, 0, 0)

  /** The counter value of kind `k` in a tally. */
  function Count(t: Tally, k: Kind): nat {
    match k
    case Messages => t.messages
    case Errors => t.errors
    case Connections => t.connections
  }

  /** How a run ends: the loop head saw the flag set; the script ran out while
      the loop would go on reconnecting; or an exception escaped the loop. */
  datatype Outcome = Stopped | ScriptExhausted | Crashed

  /** One loop iteration: what it adds, how many flag checks it makes, whether
      consumption stopped on the flag, and whether an exception escaped. */
  datatype Step = Step(delta: Tally, checks: nat, drained: bool, crashed: bool)

  /** A whole run: its outcome, totals, number of iterations (transports
      created) and number of flag checks made. */
  datatype Run = Run(outcome: Outcome, tally: Tally, iterations: nat, checks: nat)

  /** The script with every `transport.close()` succeeding. */
  function CloseSucceeds(atts: seq<Attempt>): (r: seq<Attempt>)
    ensures |r| == |atts|
    ensures forall i :: 0 <= i < |r| ==> r[i] == atts[i].(closeRaises := false)
  {
    if |atts| == 0 then [] else [atts[0].(closeRaises := false)] + CloseSucceeds(atts[1..])
  }

  /** The number of attempts whose connect succeeds. */
  function CountConnected(atts: seq<Attempt>): (n: nat)
    ensures n <= |atts|
  {
    if |atts| == 0 then 0
    else (if atts[0].Connected? then 1 else 0) + CountConnected(atts[1..])
  }

  /** The number of attempts whose connect fails. */
  function CountConnectFail(atts: seq<Attempt>): (n: nat)
    ensures n + CountConnected(atts) == |atts|
  {
    if |atts| == 0 then 0
    else (if atts[0].ConnectFail? then 1 else 0) + CountConnectFail(atts[1..])
  }
}

=== FILE: metrics.dfy ===
/**
 The metrics sink: monotonically increasing counters, one series per
 (counter set, counter kind, optional `network` attribute).
 */
module Metrics {
  import opened Wrappers

  datatype Kind = Messages | Errors | Connections

  /** The three families of instruments created at start-up. */
  datatype CounterSet = Generic | Solana | Bsc

  /** The instrument names the counters are exported under. */
  function InstrumentName(c: CounterSet, k: Kind): (n: string)
    ensures |n| > 9 && n[..9] == "bitquery."
  {
    match c
    case Generic =>
      (match k
       case Messages => "bitquery.messages"
       case Errors => "bitquery.errors"
       case Connections => "bitquery.connections")
    case Solana =>
      (match k
       case Messages => "bitquery.solana.messages"
       case Errors => "bitquery.solana.errors"
       case Connections => "bitquery.solana.connections")
    case Bsc =>
      (match k
       case Messages => "bitquery.bsc.messages"
       case Errors => "bitquery.bsc.errors"
       case Connections => "bitquery.bsc.connections")
  }

  /** The nine instruments are exported under nine different names, so each
      (counter set, kind) pair is its own instrument. */
  lemma InstrumentNamesDistinct(c1: CounterSet, k1: Kind, c2: CounterSet, k2: Kind)
    ensures InstrumentName(c1, k1) == InstrumentName(c2, k2) <==> c1 == c2 && k1 == k2
  {
  }

  /** One exported time series: an instrument plus its attribute set. */
  datatype Series = Series(counterSet: CounterSet, kind: Kind, network: Option<string>)

  type Meter = map<Series, nat>

  /** The current value of a series; a series never added to reads 0. */
  function Read(m: Meter, s: Series): nat {
    if s in m then m[s] else 0
  }

  /** `counter.add(n, attributes)`: the one series grows by n, nothing else changes. */
  function Add(m: Meter, s: Series, n: nat): (m': Meter)
    ensures Read(m', s) == Read(m, s) + n
    ensures forall o :: o != s ==> Read(m', o) == Read(m, o)
    ensures m'.Keys == m.Keys + {s}
  {
    m[s := Read(m, s) + n]
  }

  /** The series-wise sum of two meters. */
  function Merge(a: Meter, b: Meter): (m: Meter)
    ensures forall s :: Read(m, s) == Read(a, s) + Read(b, s)
    ensures m.Keys == a.Keys + b.Keys
  {
    map s | s in a.Keys + b.Keys :: Read(a, s) + Read(b, s)
  }
}

=== FILE: multi_network.dfy ===
/**
 The multi-network supervisor (sub_test.py): `run_stream` keeps one
 network's subscription alive, counting token entries per result, and
 `main` runs one supervisor per network side by side.

 Flag checks of one iteration, in order: the loop head; one after each
 counted result; one after closing, which decides the backoff.
 */
module MultiNetwork {
  import opened Wrappers
  import opened Payloads
  import opened Lifecycle
  import opened Consumption
  import opened Supervision
  import opened Metrics

  /** The counter set a network's own increments go to. */
  function SelectCounters(network: string): (c: CounterSet)
    ensures c == Solana <==> network == "Solana"
    ensures c == Bsc <==> network == "Binance Smart Chain"
    ensures c == Generic <==> network != "Solana" && network != "Binance Smart Chain"
  {
    if network == "Solana" then Solana
    else if network == "Binance Smart Chain" then Bsc
    else Generic
  }

  /** The totals of one iteration when the flag is not seen set before its
      last check: every failure (connect, stream or payload) counts one
      error, results count their entries up to the first payload that
      raises, and the iteration closes once and backs off once. */
  function Uncut(a: Attempt): (t: Tally)
    ensures t.closes == 1 && t.backoffs == 1 && t.errors <= 1
    ensures t.connections == (if a.Connected? then 1 else 0)
    ensures a.ConnectFail? ==> t.errors == 1 && t.messages == 0
    // a stream that ends cleanly with no faulty payload counts every entry
    ensures a.Connected? && a.ending == StreamEnd && FirstFault(a.results, EntryCount) == |a.results|
            ==> t.errors == 0 && t.messages == Total(a.results, EntryCount)
    // a connected attempt counts the entries before the first raising payload,
    // and one error exactly when a payload or the stream raises
    ensures a.Connected? ==> t.messages == Total(a.results[..FirstFault(a.results, EntryCount)], EntryCount)
    ensures a.Connected? ==>
              t.errors == (if FirstFault(a.results, EntryCount) < |a.results| || a.ending == StreamError then 1 else 0)
  {
    match a
    case ConnectFail(_) => Tally(0, 1, 0, 1, 1)
    case Connected(rs, ending, _) =>
      var f := FirstFault(rs, EntryCount);
      assert rs[..|rs|] == rs;
      Tally(Total(rs[..f], EntryCount), if f < |rs| || ending == StreamError then 1 else 0, 1, 1, 1)
  }

  /** One loop iteration for attempt `a`, whose flag checks start at `clock`
      (the loop head's check has already been made). */
  function Iterate(a: Attempt, signal: nat, clock: nat): (s: Step)
    ensures s.checks >= 1
    ensures !s.crashed
    ensures s.delta.closes == 1
    ensures s.delta.connections == (if a.Connected? then 1 else 0)
    ensures s.delta.errors <= 1
    ensures a.ConnectFail? ==> s.delta.errors == 1 && s.delta.messages == 0 && !s.drained
    ensures a.Connected? ==> s.checks - 1 <= |a.results|
    ensures a.Connected? ==> s.delta.messages == Total(a.results[..s.checks - 1], EntryCount)
    // breaking out on shutdown is not an error, and is never followed by a backoff
    ensures s.drained ==> s.delta.errors == 0 && s.delta.backoffs == 0
    // the backoff is decided by the check made after closing, the iteration's last
    ensures s.delta.backoffs == (if IsSet(signal, clock + s.checks - 1) then 0 else 1)
    ensures !IsSet(signal, clock + s.checks - 1) ==> s.delta == Uncut(a) && !s.drained
    // unless it breaks on the flag, it counts what the whole attempt counts
    ensures !s.drained ==> s.delta.errors == Uncut(a).errors && s.delta.messages == Uncut(a).messages
  {
    match a
    case ConnectFail(_) =>
      // the outer handler counts the error; close is attempted, any exception
      // it raises is swallowed; then the post-close check decides the backoff
      Step(Tally(0, 1, 0, 1, if IsSet(signal, clock) then 0 else 1), 1, false, false)
    case Connected(rs, ending, _) =>
      var c := Consume(rs, ending, EntryCount, signal, clock);
      var post := clock + c.checks;
      Step(Tally(c.messages, if c.failed then 1 else 0, 1, 1, if IsSet(signal, post) then 0 else 1),
           c.checks + 1, c.drained, false)
  }

  /** An iteration breaks out of its subscription right after the first
      result whose check sees the flag, provided that result comes before
      the first payload that raises; its checks are then the results read
      and the check after closing. */
  lemma IterateBreaks(a: Attempt, signal: nat, clock: nat)
    ensures a.Connected? ==> (Iterate(a, signal, clock).drained <==> Lag(signal, clock) < FirstFault(a.results, EntryCount))
    ensures Iterate(a, signal, clock).drained ==> Iterate(a, signal, clock).checks == Lag(signal, clock) + 2
  {
  }

  /** The loop body of `run_stream`, for a shutdown at check `signal`. */
  function StepOf(signal: nat): StepFn {
    (a: Attempt, c: nat) => Iterate(a, signal, c)
  }

  /** `run_stream` for one network: the loop from the first flag check on. */
  function RunStream(script: Script): (r: Run)
    // every exception of an iteration is caught: the supervisor never crashes
    ensures r.outcome != Crashed
  {
    StepBacksOffWhileClear(script.signal);
    LoopNeverCrashes(script.attempts, StepOf(script.signal), script.signal, 0,
                     Loop(script.attempts, StepOf(script.signal), script.signal, 0));
    Loop(script.attempts, StepOf(script.signal), script.signal, 0)
  }

  /** Every iteration of `run_stream` closes once, counts a connection
      exactly when the connect succeeds, and at most one error, exactly one
      when the connect fails. */
  lemma StepCounts(signal: nat)
    ensures forall a, c :: StepOf(signal)(a, c).delta.closes == 1
    ensures forall a, c :: StepOf(signal)(a, c).delta.connections == (if a.Connected? then 1 else 0)
    ensures forall a, c :: StepOf(signal)(a, c).delta.errors <= 1
    ensures forall a: Attempt, c: nat :: a.ConnectFail? ==> StepOf(signal)(a, c).delta.errors == 1
  {
  }

  /** Every iteration of `run_stream` makes a flag check, never crashes, and
      backs off exactly when its last check finds the flag clear. */
  lemma StepBacksOffWhileClear(signal: nat)
    ensures forall a: Attempt, c: nat ::
              && StepOf(signal)(a, c).checks >= 1
              && !StepOf(signal)(a, c).crashed
              && StepOf(signal)(a, c).delta.backoffs
                   == (if IsSet(signal, c + StepOf(signal)(a, c).checks - 1) then 0 else 1)
  {
  }

  /** An iteration of `run_stream` followed by a clear check adds its
      attempt's uncut totals. */
  lemma StepUncut(signal: nat)
    ensures forall a: Attempt, c: nat :: !IsSet(signal, c + StepOf(signal)(a, c).checks) && !StepOf(signal)(a, c).crashed
              ==> StepOf(signal)(a, c).delta == Uncut(a)
  {
  }

  /** `run_stream` never dies of an exception and leaves only through its
      loop head seeing the shutdown flag, so once shutdown is signalled
      within the scripted attempts it stops. */
  lemma RunStreamStops(script: Script, r: Run)
    requires r == RunStream(script)
    ensures r.outcome == Stopped || r.outcome == ScriptExhausted
    ensures r.checks >= 1 + r.iterations
    ensures r.iterations <= |script.attempts|
    ensures r.outcome == Stopped ==> IsSet(script.signal, r.checks - 1)
    ensures r.outcome == ScriptExhausted ==> r.iterations == |script.attempts| && !IsSet(script.signal, r.checks - 1)
    ensures script.signal <= |script.attempts| ==> r.outcome == Stopped
  {
    StepBacksOffWhileClear(script.signal);
    LoopShape(script.attempts, StepOf(script.signal), script.signal, 0, r);
    LoopNeverCrashes(script.attempts, StepOf(script.signal), script.signal, 0, r);
  }

  /** `run_stream` backs off after every iteration but possibly the last,
      and after all of them while it never sees the flag. */
  lemma RunStreamBacksOff(script: Script, r: Run)
    requires r == RunStream(script)
    ensures r.tally.backoffs <= r.iterations <= r.tally.backoffs + 1
    ensures r.outcome == ScriptExhausted ==> r.tally.backoffs == r.iterations
  {
    StepBacksOffWhileClear(script.signal);
    LoopBackoffWhileClear(script.attempts, StepOf(script.signal), script.signal, 0, r);
  }

  /** `run_stream` closes the transport once per iteration, counts one
      connection per successful connect and at least one error per failed
      connect. */
  lemma RunStreamCounts(script: Script, r: Run)
    requires r == RunStream(script)
    ensures r.iterations <= |script.attempts|
    ensures r.tally.closes == r.iterations
    ensures r.tally.connections == CountConnected(script.attempts[..r.iterations])
    ensures CountConnectFail(script.attempts[..r.iterations]) <= r.tally.errors <= r.iterations
  {
    StepCounts(script.signal);
    LoopCounts(script.attempts, StepOf(script.signal), script.signal, 0, r);
  }

  /** While shutdown is never seen, the totals of `run_stream` are those of
      every attempt run to completion. */
  lemma RunStreamUninterrupted(script: Script, r: Run)
    requires r == RunStream(script)
    ensures r.outcome == ScriptExhausted ==> r.tally == Sum(script.attempts, Uncut)
  {
    StepUncut(script.signal);
    LoopUncut(script.attempts, StepOf(script.signal), Uncut, script.signal, 0, r);
  }

  /** Every iteration of `run_stream` but the last runs to completion, so the
      totals of any run are the uncut totals of all attempts but the last
      made, plus what that last iteration counts (which `Iterate` pins down
      exactly: a failure counts one error unless it broke on the flag). */
  lemma RunStreamTotals(script: Script, r: Run)
    requires r == RunStream(script)
    ensures r.iterations <= |script.attempts|
    ensures r.iterations == 0 ==> r.tally == Zero
    ensures r.iterations > 0 ==>
              r.tally == Sum(script.attempts[..r.iterations - 1], Uncut)
                           .Plus(Iterate(script.attempts[r.iterations - 1], script.signal,
                                         LastStart(script.attempts, StepOf(script.signal), script.signal, 0)).delta)
  {
    var atts, step, signal := script.attempts, StepOf(script.signal), script.signal;
    StepUncut(signal);
    LoopTotals(atts, step, Uncut, signal, 0, r);
    if r.iterations > 0 {
      StepIsIterate(signal, atts[r.iterations - 1], LastStart(atts, step, signal, 0));
    }
  }

  lemma StepIsIterate(signal: nat, a: Attempt, c: nat)
    ensures StepOf(signal)(a, c) == Iterate(a, signal, c)
  {
  }

  /** Once `run_stream` has stopped, what the transport would have done on
      later attempts is irrelevant: no reconnect happens after shutdown. */
  lemma NoReconnectAfterShutdown(script: Script, more: seq<Attempt>, r: Run)
    requires r == RunStream(script) && r.outcome == Stopped
    ensures r.iterations <= |script.attempts|
    ensures RunStream(script.(attempts := script.attempts[..r.iterations] + more)) == r
  {
    LoopNoReconnect(script.attempts, more, StepOf(script.signal), script.signal, 0, r);
  }

  /** An exception from `transport.close()` is swallowed: the run is the same
      as if every close had succeeded. */
  lemma CloseFailuresSwallowed(script: Script)
    ensures RunStream(script.(attempts := CloseSucceeds(script.attempts))) == RunStream(script)
  {
    var step := StepOf(script.signal);
    assert forall a: Attempt, c: nat :: step(a.(closeRaises := false), c) == step(a, c);
    LoopIgnoresClose(script.attempts, step, script.signal, 0);
  }

  /** A well-formed subscription result carrying the token entries `entries`. */
  function Batch(entries: seq<Value>): Result {
    Execution(Dict(map["Trading" := Dict(map["Tokens" := List(entries)])]))
  }

  /** A well-formed batch counts its entries. */
  lemma BatchCounts(entries: seq<Value>)
    ensures EntryCount(Batch(entries)) == Some(|entries|)
  {
  }

  /** The results carrying each batch of `batches` in turn. */
  function Batches(batches: seq<seq<Value>>): (rs: seq<Result>)
    ensures |rs| == |batches|
    ensures forall i :: 0 <= i < |rs| ==> rs[i] == Batch(batches[i])
  {
    if |batches| == 0 then [] else [Batch(batches[0])] + Batches(batches[1..])
  }

  /** The sum of the batch sizes. */
  function Entries(batches: seq<seq<Value>>): nat {
    if |batches| == 0 then 0 else |batches[0]| + Entries(batches[1..])
  }

  /** Well-formed batches of sizes s1..sN never make the extraction raise,
      and count s1 + ... + sN messages, however they are split. */
  lemma {:induction false} BatchSizesAdd(batches: seq<seq<Value>>)
    ensures FirstFault(Batches(batches), EntryCount) == |batches|
    ensures Total(Batches(batches), EntryCount) == Entries(batches)
  {
    if |batches| > 0 {
      var rs := Batches(batches);
      BatchCounts(batches[0]);
      assert rs[1..] == Batches(batches[1..]);
      BatchSizesAdd(batches[1..]);
    }
  }

  /** A result carrying `Trading.Tokens` with three entries. */
  const ThreeTokens: Result := Batch([Null, Null, Null])

  /** Two failed connects, then a connect delivering two results of three
      token entries each, with shutdown seen by the check after the first:
      consumption breaks before the second result, so two errors, one
      connection, three messages, three closes, and no backoff after the
      shutdown. */
  lemma ReconnectThenShutdown()
    ensures RunStream(Script([ConnectFail(false), ConnectFail(false), Connected([ThreeTokens, ThreeTokens], StreamEnd, false)], 5))
            == Run(Stopped, Tally(3, 2, 1, 3, 2), 3, 8)
  {
    var fail, ok := ConnectFail(false), Connected([ThreeTokens, ThreeTokens], StreamEnd, false);
    var step := StepOf(5);
    var atts := [fail, fail, ok];
    ScenarioTail();
    assert step(fail, 1) == Iterate(fail, 5, 1);
    assert atts[1..] == [fail, ok];
    LoopTurn(atts, step, 5, 0, Iterate(fail, 5, 1), Loop(atts[1..], step, 5, 2));
  }

  /** The scenario from its second attempt on. */
  lemma ScenarioTail()
    ensures Loop([ConnectFail(false), Connected([ThreeTokens, ThreeTokens], StreamEnd, false)], StepOf(5), 5, 2)
            == Run(Stopped, Tally(3, 1, 1, 2, 1), 2, 8)
  {
    var fail, ok := ConnectFail(false), Connected([ThreeTokens, ThreeTokens], StreamEnd, false);
    var step := StepOf(5);
    ScenarioLast();
    assert step(fail, 3) == Iterate(fail, 5, 3);
    assert [fail, ok][1..] == [ok];
    LoopTurn([fail, ok], step, 5, 2, Iterate(fail, 5, 3), Loop([ok], step, 5, 4));
  }

  /** The scenario's last attempt, after the loop head's check 4. */
  lemma ScenarioLast()
    ensures Loop([Connected([ThreeTokens, ThreeTokens], StreamEnd, false)], StepOf(5), 5, 4) == Run(Stopped, Tally(3, 0, 1, 1, 0), 1, 8)
  {
    var ok := Connected([ThreeTokens, ThreeTokens], StreamEnd, false);
    var step := StepOf(5);
    ScenarioDrain();
    assert step(ok, 5) == Iterate(ok, 5, 5);
    LoopTurn([ok], step, 5, 4, Iterate(ok, 5, 5), Loop([ok][1..], step, 5, 7));
  }

  /** The first batch's three entries are counted, the flag is seen,
      consumption breaks before the second batch, and the close is not
      followed by a backoff. */
  lemma ScenarioDrain()
    ensures Iterate(Connected([ThreeTokens, ThreeTokens], StreamEnd, false), 5, 5) == Step(Tally(3, 0, 1, 1, 0), 2, true, false)
  {
  }

  /** The two series one increment of kind `k` goes to: the network's
      selected counter without attributes, and the generic counter tagged
      `network=<name>`. */
  function Targets(network: string, k: Kind): (ts: set<Series>)
    ensures Series(SelectCounters(network), k, None) in ts
    ensures Series(Generic, k, Some(network)) in ts
    ensures forall s :: s in ts ==>
              if s.network.Some? then s == Series(Generic, k, Some(network))
              else s == Series(SelectCounters(network), k, None)
  {
    {Series(SelectCounters(network), k, None), Series(Generic, k, Some(network))}
  }

  /** One increment as the loop makes it: `n` is added to both target series
      of kind `k` and no other series changes. */
  function Record(m: Meter, network: string, k: Kind, n: nat): (m': Meter)
    ensures forall s :: s in Targets(network, k) ==> Read(m', s) == Read(m, s) + n
    ensures forall s :: s !in Targets(network, k) ==> Read(m', s) == Read(m, s)
  {
    Add(Add(m, Series(SelectCounters(network), k, None), n), Series(Generic, k, Some(network)), n)
  }

  /** The meter a run of `network` with totals `t` leaves behind. */
  function Emit(network: string, t: Tally): (m: Meter)
    ensures forall k :: Read(m, Series(SelectCounters(network), k, None)) == Count(t, k)
    ensures forall k :: Read(m, Series(Generic, k, Some(network))) == Count(t, k)
    ensures forall s: Series :: s.network != Some(network) && (s.network.Some? || s.counterSet != SelectCounters(network))
                        ==> Read(m, s) == 0
    // the network's tag only ever appears on the generic counters
    ensures forall s: Series :: s.network == Some(network) && s.counterSet != Generic ==> Read(m, s) == 0
  {
    map s | s in Targets(network, Messages) + Targets(network, Errors) + Targets(network, Connections)
      :: Count(t, s.kind)
  }

  /** Recording a run's increments kind by kind, two series per increment,
      leaves exactly the emitted meter. */
  lemma EmitMatchesRecords(network: string, t: Tally)
    ensures var m1 := Record(map[], network, Messages, t.messages);
            var m2 := Record(m1, network, Errors, t.errors);
            forall s :: Read(Record(m2, network, Connections, t.connections), s) == Read(Emit(network, t), s)
  {
  }

  /** Emitting totals at once equals emitting them in parts, so aggregating a
      run's increments per kind loses nothing. */
  lemma EmitAdditive(network: string, a: Tally, b: Tally)
    ensures forall s: Series :: Read(Emit(network, a.Plus(b)), s) == Read(Emit(network, a), s) + Read(Emit(network, b), s)
  {
  }

  /** One configured subscription of `main`. */
  datatype Source = Source(network: string, script: Script)

  /** What `asyncio.gather` over the supervisors yields: each run, the meter
      they share, and whether gather returns (every supervisor stopped). */
  datatype Gathered = Gathered(runs: seq<Run>, meter: Meter, done: bool)

  function Gather(sources: seq<Source>): (g: Gathered)
    ensures |g.runs| == |sources|
    // each supervisor's run depends on its own script only
    ensures forall i :: 0 <= i < |sources| ==> g.runs[i] == RunStream(sources[i].script)
    ensures g.done <==> forall i :: 0 <= i < |sources| ==> g.runs[i].outcome == Stopped
  {
    if |sources| == 0 then Gathered([], map[], true)
    else
      var r := RunStream(sources[0].script);
      var rest := Gather(sources[1..]);
      Gathered([r] + rest.runs, Merge(Emit(sources[0].network, r.tally), rest.meter),
               r.outcome == Stopped && rest.done)
  }

  /** `main`: the Solana and the Binance Smart Chain supervisors. */
  function Main(solana: Script, bsc: Script): (g: Gathered)
    ensures |g.runs| == 2 && g.runs[0] == RunStream(solana) && g.runs[1] == RunStream(bsc)
    ensures g.done <==> RunStream(solana).outcome == Stopped && RunStream(bsc).outcome == Stopped
  {
    Gather([Source("Solana", solana), Source("Binance Smart Chain", bsc)])
  }

  /** With two supervisors, every series holds the sum of what each one emits. */
  lemma GatherPair(a: Source, b: Source)
    ensures forall s: Series :: Read(Gather([a, b]).meter, s)
              == Read(Emit(a.network, RunStream(a.script).tally), s) + Read(Emit(b.network, RunStream(b.script).tally), s)
  {
    assert [a, b][1..] == [b];
    assert [b][1..] == [];
    assert Gather([]).meter == map[];
  }

  /** The two networks' counters do not interact: each per-network counter and
      each tagged generic counter holds that network's totals, and the
      untagged generic counters stay at zero. */
  lemma MainKeepsNetworksApart(solana: Script, bsc: Script, k: Kind)
    ensures var g := Main(solana, bsc);
            && Read(g.meter, Series(Solana, k, None)) == Count(RunStream(solana).tally, k)
            && Read(g.meter, Series(Generic, k, Some("Solana"))) == Count(RunStream(solana).tally, k)
            && Read(g.meter, Series(Bsc, k, None)) == Count(RunStream(bsc).tally, k)
            && Read(g.meter, Series(Generic, k, Some("Binance Smart Chain"))) == Count(RunStream(bsc).tally, k)
            && Read(g.meter, Series(Generic, k, None)) == 0
  {
    var a, b := Source("Solana", solana), Source("Binance Smart Chain", bsc);
    assert Main(solana, bsc) == Gather([a, b]);
    GatherPair(a, b);
    PairReads(Main(solana, bsc).meter, RunStream(solana).tally, RunStream(bsc).tally, k);
  }

  /** Any meter holding the Solana emission plus the Binance Smart Chain
      emission keeps the two networks apart on the series of kind `k`. */
  lemma PairReads(m: Meter, tS: Tally, tB: Tally, k: Kind)
    requires forall s: Series :: Read(m, s) == Read(Emit("Solana", tS), s) + Read(Emit("Binance Smart Chain", tB), s)
    ensures Read(m, Series(Solana, k, None)) == Count(tS, k)
    ensures Read(m, Series(Generic, k, Some("Solana"))) == Count(tS, k)
    ensures Read(m, Series(Bsc, k, None)) == Count(tB, k)
    ensures Read(m, Series(Generic, k, Some("Binance Smart Chain"))) == Count(tB, k)
    ensures Read(m, Series(Generic, k, None)) == 0
  {
  }

  /** The order in which the supervisors are started does not change any series. */
  lemma GatherOrderIrrelevant(a: Source, b: Source)
    ensures forall s: Series :: Read(Gather([a, b]).meter, s) == Read(Gather([b, a]).meter, s)
  {
  }
}

=== FILE: payloads.dfy ===
/**
 Subscription payloads and the entry-count extraction applied to each one
 by the multi-network supervisor (sub_test.py, `run_stream`).

 A payload is a decoded JSON value. The extraction is Python duck typing:
 `getattr(result, "data", result) or {}`, then `.get("Trading", {})`,
 `.get("Tokens", [])` and `len(...)`. A `.get` on a non-dict or a `len` of a
 value without a length raises; `None` stands for that exception.
 */
module Payloads {
  import opened Wrappers

  /** A decoded JSON value (fractional numbers are not modelled). */
  datatype Value =
    | Null
    | Bool(b: bool)
    | Number(n: int)
    | Str(s: string)
    | List(items: seq<Value>)
    | Dict(fields: map<string, Value>)

  /** One item yielded by the subscription: an execution result that carries
      a `data` attribute, or a bare value without one. */
  datatype Result = Execution(data: Value) | Bare(value: Value)

  /** Python truthiness of a JSON value. */
  predicate Truthy(v: Value) {
    match v
    case Null => false
    case Bool(b) => b
    case Number(n) => n != 0
    case Str(s) => |s| > 0
    case List(items) => |items| > 0
    case Dict(fields) => |fields| > 0
  }

  /** The value the extraction starts from: the `data` attribute if there is
      one, else the item itself, with every falsy value replaced by `{}`. */
  function Data(r: Result): (d: Value)
    ensures Truthy(d) || d == Dict(map[])
    ensures r.Execution? && Truthy(r.data) ==> d == r.data
    ensures r.Bare? && Truthy(r.value) ==> d == r.value
    ensures r.Execution? && !Truthy(r.data) ==> d == Dict(map[])
    ensures r.Bare? && !Truthy(r.value) ==> d == Dict(map[])
  {
    var v := match r case Execution(data) => data case Bare(value) => value;
    if Truthy(v) then v else Dict(map[])
  }

  /** Python `len`: defined for lists, strings and dicts, a TypeError otherwise. */
  function Len(v: Value): (n: Option<nat>)
    ensures n.Some? <==> v.List? || v.Str? || v.Dict?
    ensures v.List? ==> n == Some(|v.items|)
    ensures v.Str? ==> n == Some(|v.s|)
    ensures v.Dict? ==> n == Some(|v.fields|)
  {
    match v
    case List(items) => Some(|items|)
    case Str(s) => Some(|s|)
    case Dict(fields) => Some(|fields|)
    case _ => None
  }

  /** Python `d.get(key, default)` on a dict. */
  function Get(fields: map<string, Value>, key: string, default: Value): Value {
    if key in fields then fields[key] else default
  }

  /** The number of token entries one payload contributes to the message
      counters, or None when the extraction raises. */
  function EntryCount(r: Result): (n: Option<nat>)
    // a payload that is not a dict, or is empty, adds 0
    ensures !Data(r).Dict? ==> n == Some(0)
    ensures Data(r) == Dict(map[]) ==> n == Some(0)
    // a dict without "Trading" adds 0
    ensures Data(r).Dict? && "Trading" !in Data(r).fields ==> n == Some(0)
    // "Trading" holding a dict without "Tokens" adds 0
    ensures Data(r).Dict? && "Trading" in Data(r).fields
            && Data(r).fields["Trading"].Dict? && "Tokens" !in Data(r).fields["Trading"].fields
            ==> n == Some(0)
    // otherwise the payload adds the length of data["Trading"]["Tokens"]
    ensures Data(r).Dict? && "Trading" in Data(r).fields
            && Data(r).fields["Trading"].Dict? && "Tokens" in Data(r).fields["Trading"].fields
            ==> n == Len(Data(r).fields["Trading"].fields["Tokens"])
    // the extraction raises exactly when "Trading" is present but not a dict,
    // or "Tokens" is present but has no length
    ensures n.None? <==>
            Data(r).Dict? && "Trading" in Data(r).fields
            && (!Data(r).fields["Trading"].Dict?
                || ("Tokens" in Data(r).fields["Trading"].fields
                    && Len(Data(r).fields["Trading"].fields["Tokens"]).None?))
  {
    var data := Data(r);
    if !data.Dict? then Some(0)
    else
      var trading := Get(data.fields, "Trading", Dict(map[]));
      if !trading.Dict? then None
      else Len(Get(trading.fields, "Tokens", List([])))
  }
}

=== FILE: single_network.dfy ===
/**
 The single-network supervisor (test.py): `main` keeps one subscription
 alive, counting one message per result on the generic counters without
 attributes.

 Flag checks of one iteration, in order: the loop head; one after each
 result. The backoff is unconditional, and `transport.close()` runs without
 a handler, so an exception it raises leaves the loop and ends `main`.
 */
module SingleNetwork {
  import opened Wrappers
  import opened Payloads
  import opened Lifecycle
  import opened Consumption
  import opened Supervision
  import opened Metrics

  /** Every result counts as one message, whatever its payload. */
  function One(r: Result): Option<nat> {
    Some(1)
  }

  /** Counting one per result never raises, and counts the results. */
  lemma {:induction false} CountsEveryResult(rs: seq<Result>)
    ensures FirstFault(rs, One) == |rs|
    ensures Total(rs, One) == |rs|
  {
    if |rs| > 0 {
      CountsEveryResult(rs[1..]);
    }
  }

  /** The totals of one iteration when the flag is not seen set during it
      and close succeeds: one message per result, one error for a failed
      connect or a raising stream, one close and one backoff. */
  function Uncut(a: Attempt): (t: Tally)
    ensures t.closes == 1 && t.backoffs == 1
    ensures t.connections == (if a.Connected? then 1 else 0)
    // one error exactly when the connect fails or the stream raises
    ensures t.errors == (if a.ConnectFail? || a.ending == StreamError then 1 else 0)
    ensures a.ConnectFail? ==> t.messages == 0
    // every result delivered counts one message
    ensures a.Connected? ==> t.messages == |a.results|
  {
    match a
    case ConnectFail(_) => Tally(0, 1, 0, 1, 1)
    case Connected(rs, ending, _) => Tally(|rs|, if ending == StreamError then 1 else 0, 1, 1, 1)
  }

  /** One loop iteration for attempt `a`, whose flag checks start at `clock`
      (the loop head's check has already been made). */
  function Iterate(a: Attempt, signal: nat, clock: nat): (s: Step)
    // an exception from close escapes the loop, and skips the backoff
    ensures s.crashed == a.closeRaises
    ensures s.delta.backoffs == (if s.crashed then 0 else 1)
    ensures s.delta.closes == 1
    ensures s.delta.connections == (if a.Connected? then 1 else 0)
    ensures s.delta.errors <= 1
    ensures a.ConnectFail? ==> s.delta.errors == 1 && s.delta.messages == 0 && s.checks == 0
    // every result received is counted once and then followed by one check
    ensures a.Connected? ==> s.delta.messages == s.checks <= |a.results|
    ensures s.drained ==> s.delta.errors == 0 && s.checks >= 1 && IsSet(signal, clock + s.checks - 1)
    ensures !IsSet(signal, clock + s.checks) && !s.crashed ==> s.delta == Uncut(a) && !s.drained
    // unless it breaks on the flag, it counts what the whole attempt counts,
    // even when its close then raises
    ensures !s.drained ==> s.delta.errors == Uncut(a).errors && s.delta.messages == Uncut(a).messages
  {
    match a
    case ConnectFail(cr) =>
      Step(Tally(0, 1, 0, 1, if cr then 0 else 1), 0, false, cr)
    case Connected(rs, ending, cr) =>
      CountsEveryResult(rs);
      var c := Consume(rs, ending, One, signal, clock);
      CountsEveryResult(rs[..c.checks]);
      Step(Tally(c.messages, if c.failed then 1 else 0, 1, 1, if cr then 0 else 1), c.checks, c.drained, cr)
  }

  /** An iteration breaks out of its subscription right after the first
      result whose check sees the flag; its checks are then the results read. */
  lemma IterateBreaks(a: Attempt, signal: nat, clock: nat)
    ensures a.Connected? ==> (Iterate(a, signal, clock).drained <==> Lag(signal, clock) < |a.results|)
    ensures Iterate(a, signal, clock).drained ==> Iterate(a, signal, clock).checks == Lag(signal, clock) + 1
  {
  }

  /** The loop body of `main`, for a shutdown at check `signal`. */
  function StepOf(signal: nat): StepFn {
    (a: Attempt, c: nat) => Iterate(a, signal, c)
  }

  /** `main`: the loop from the first flag check on. */
  function RunMain(script: Script): (r: Run)
    // only a raising close escapes, and it ends the run at its own attempt
    ensures r.iterations <= |script.attempts|
    ensures r.outcome == Crashed ==> r.iterations > 0 && script.attempts[r.iterations - 1].closeRaises
    ensures r.outcome != Crashed ==> forall i :: 0 <= i < r.iterations ==> !script.attempts[i].closeRaises
  {
    StepCloseEscapes(script.signal);
    LoopCloseEscapes(script.attempts, StepOf(script.signal), script.signal, 0,
                     Loop(script.attempts, StepOf(script.signal), script.signal, 0));
    Loop(script.attempts, StepOf(script.signal), script.signal, 0)
  }

  /** Every iteration of `main` crashes exactly when its close raises, and
      backs off unless it crashes. */
  lemma StepCloseEscapes(signal: nat)
    ensures forall a, c :: StepOf(signal)(a, c).crashed == a.closeRaises
    ensures forall a, c :: StepOf(signal)(a, c).delta.backoffs == (if StepOf(signal)(a, c).crashed then 0 else 1)
  {
  }

  /** Every iteration of `main` closes once, counts a connection exactly when
      the connect succeeds, and at most one error, exactly one when the
      connect fails. */
  lemma StepCounts(signal: nat)
    ensures forall a, c :: StepOf(signal)(a, c).delta.closes == 1
    ensures forall a, c :: StepOf(signal)(a, c).delta.connections == (if a.Connected? then 1 else 0)
    ensures forall a, c :: StepOf(signal)(a, c).delta.errors <= 1
    ensures forall a: Attempt, c: nat :: a.ConnectFail? ==> StepOf(signal)(a, c).delta.errors == 1
  {
  }

  /** An iteration of `main` that does not crash and is followed by a clear
      check adds its attempt's uncut totals. */
  lemma StepUncut(signal: nat)
    ensures forall a: Attempt, c: nat :: !IsSet(signal, c + StepOf(signal)(a, c).checks) && !StepOf(signal)(a, c).crashed
              ==> StepOf(signal)(a, c).delta == Uncut(a)
  {
  }

  /** `main` leaves its loop when the loop head sees the shutdown flag, or
      when a close raises: then it ends at the first attempt made whose
      close raises. It backs off after every iteration that did not crash. */
  lemma RunMainEnds(script: Script, r: Run)
    requires r == RunMain(script)
    ensures r.iterations <= |script.attempts|
    ensures r.outcome == Stopped ==> r.checks >= 1 && IsSet(script.signal, r.checks - 1)
    ensures r.outcome == ScriptExhausted ==> r.iterations == |script.attempts|
    ensures r.outcome == Crashed ==> r.iterations > 0 && script.attempts[r.iterations - 1].closeRaises
    ensures forall i :: 0 <= i < r.iterations && (r.outcome != Crashed || i < r.iterations - 1)
              ==> !script.attempts[i].closeRaises
    ensures r.outcome != Crashed ==> r.tally.backoffs == r.iterations
    ensures r.outcome == Crashed ==> r.tally.backoffs == r.iterations - 1
    ensures script.signal <= |script.attempts| ==> r.outcome != ScriptExhausted
  {
    StepCloseEscapes(script.signal);
    LoopShape(script.attempts, StepOf(script.signal), script.signal, 0, r);
    LoopCloseEscapes(script.attempts, StepOf(script.signal), script.signal, 0, r);
  }

  /** `main` closes the transport once per iteration, counts one connection
      per successful connect and at least one error per failed connect. */
  lemma RunMainCounts(script: Script, r: Run)
    requires r == RunMain(script)
    ensures r.iterations <= |script.attempts|
    ensures r.tally.closes == r.iterations
    ensures r.tally.connections == CountConnected(script.attempts[..r.iterations])
    ensures CountConnectFail(script.attempts[..r.iterations]) <= r.tally.errors <= r.iterations
  {
    StepCounts(script.signal);
    LoopCounts(script.attempts, StepOf(script.signal), script.signal, 0, r);
  }

  /** While shutdown is never seen and every close succeeds, the totals of
      `main` are those of every attempt run to completion. */
  lemma RunMainUninterrupted(script: Script, r: Run)
    requires r == RunMain(script)
    ensures r.outcome == ScriptExhausted ==> r.tally == Sum(script.attempts, Uncut)
  {
    StepUncut(script.signal);
    LoopUncut(script.attempts, StepOf(script.signal), Uncut, script.signal, 0, r);
  }

  /** Every iteration of `main` but the last runs to completion, so the
      totals of any run are the uncut totals of all attempts but the last
      made, plus what that last iteration counts (which `Iterate` pins down
      exactly, also when its close raises). */
  lemma RunMainTotals(script: Script, r: Run)
    requires r == RunMain(script)
    ensures r.iterations <= |script.attempts|
    ensures r.iterations == 0 ==> r.tally == Zero
    ensures r.iterations > 0 ==>
              r.tally == Sum(script.attempts[..r.iterations - 1], Uncut)
                           .Plus(Iterate(script.attempts[r.iterations - 1], script.signal,
                                         LastStart(script.attempts, StepOf(script.signal), script.signal, 0)).delta)
  {
    var atts, step, signal := script.attempts, StepOf(script.signal), script.signal;
    StepUncut(signal);
    LoopTotals(atts, step, Uncut, signal, 0, r);
    if r.iterations > 0 {
      StepIsIterate(signal, atts[r.iterations - 1], LastStart(atts, step, signal, 0));
    }
  }

  lemma StepIsIterate(signal: nat, a: Attempt, c: nat)
    ensures StepOf(signal)(a, c) == Iterate(a, signal, c)
  {
  }

  /** Once `main` has left its loop, whether through shutdown or a raising
      close, later attempts are irrelevant: nothing reconnects. */
  lemma NoReconnectAfterExit(script: Script, more: seq<Attempt>, r: Run)
    requires r == RunMain(script) && r.outcome != ScriptExhausted
    ensures r.iterations <= |script.attempts|
    ensures RunMain(script.(attempts := script.attempts[..r.iterations] + more)) == r
  {
    LoopNoReconnect(script.attempts, more, StepOf(script.signal), script.signal, 0, r);
  }

  /** Two failed connects, then a connect whose first result is followed by
      the shutdown: two errors, one connection, one message whatever the
      result carries, three closes, and a backoff after every close. */
  lemma ReconnectThenShutdown(rs: seq<Result>)
    requires |rs| > 0
    ensures RunMain(Script([ConnectFail(false), ConnectFail(false), Connected(rs, StreamEnd, false)], 3))
            == Run(Stopped, Tally(1, 2, 1, 3, 3), 3, 5)
  {
    var fail := ConnectFail(false);
    var step := StepOf(3);
    var atts := [fail, fail, Connected(rs, StreamEnd, false)];
    ScenarioTail(rs);
    assert step(fail, 1) == Iterate(fail, 3, 1);
    assert atts[1..] == [fail, Connected(rs, StreamEnd, false)];
    LoopTurn(atts, step, 3, 0, Iterate(fail, 3, 1), Loop(atts[1..], step, 3, 1));
    assert RunMain(Script(atts, 3)) == Loop(atts, step, 3, 0);
  }

  /** The scenario from its second attempt on. */
  lemma ScenarioTail(rs: seq<Result>)
    requires |rs| > 0
    ensures Loop([ConnectFail(false), Connected(rs, StreamEnd, false)], StepOf(3), 3, 1)
            == Run(Stopped, Tally(1, 1, 1, 2, 2), 2, 5)
  {
    var fail, ok := ConnectFail(false), Connected(rs, StreamEnd, false);
    var step := StepOf(3);
    ScenarioLast(rs);
    assert step(fail, 2) == Iterate(fail, 3, 2);
    assert [fail, ok][1..] == [ok];
    LoopTurn([fail, ok], step, 3, 1, Iterate(fail, 3, 2), Loop([ok], step, 3, 2));
  }

  /** The scenario's last attempt: one result, then the flag is seen. */
  lemma ScenarioLast(rs: seq<Result>)
    requires |rs| > 0
    ensures Loop([Connected(rs, StreamEnd, false)], StepOf(3), 3, 2) == Run(Stopped, Tally(1, 0, 1, 1, 1), 1, 5)
  {
    var ok := Connected(rs, StreamEnd, false);
    var step := StepOf(3);
    assert Consume(rs, StreamEnd, One, 3, 3) == Consumed(1, false, true, 1);
    assert step(ok, 3) == Step(Tally(1, 0, 1, 1, 1), 1, true, false);
    LoopTurn([ok], step, 3, 2, step(ok, 3), Loop([ok][1..], step, 3, 4));
  }

  /** `n` calls of `counter.add(1)` on the generic counter of kind `k`: the
      series grows by n and no other series changes. */
  function Record(m: Meter, k: Kind, n: nat): (m': Meter)
    ensures Read(m', Series(Generic, k, None)) == Read(m, Series(Generic, k, None)) + n
    ensures forall s :: s != Series(Generic, k, None) ==> Read(m', s) == Read(m, s)
    decreases n
  {
    if n == 0 then m else Record(Add(m, Series(Generic, k, None), 1), k, n - 1)
  }

  /** Recording a run's increments one by one leaves exactly the emitted meter. */
  lemma EmitMatchesRecords(t: Tally)
    ensures forall s :: Read(Record(Record(Record(map[], Messages, t.messages), Errors, t.errors), Connections, t.connections), s)
                        == Read(Emit(t), s)
  {
  }

  /** The meter `main` leaves behind: its totals on the three generic
      counters, without attributes. */
  function Emit(t: Tally): (m: Meter)
    ensures forall k :: Read(m, Series(Generic, k, None)) == Count(t, k)
    ensures forall s: Series :: s.counterSet != Generic || s.network.Some? ==> Read(m, s) == 0
  {
    map s | s in {Series(Generic, Messages, None), Series(Generic, Errors, None), Series(Generic, Connections, None)}
      :: Count(t, s.kind)
  }
}

=== FILE: supervision.dfy ===
/**
 The reconnect loop `while not shutdown_event.is_set(): ...` shared by both
 supervisors, with the body of one iteration left as a parameter. Each
 supervisor supplies its own iteration; the lemmas here state what the loop
 guarantees given what every iteration guarantees.

 Flag checks are numbered over the whole run: the loop head makes one, the
 iteration makes `checks` more, then the next loop head follows.
 */
module Supervision {
  import opened Lifecycle

  /** One iteration for an attempt whose first flag check is the given number. */
  type StepFn = (Attempt, nat) -> Step

  /** The loop over the remaining attempts, whose head check is number `clock`.
      An iteration whose exception escapes (`crashed`) ends the run. */
  function Loop(atts: seq<Attempt>, step: StepFn, signal: nat, clock: nat): (r: Run)
    // at most one iteration per attempt, all of them when the script runs out
    ensures r.iterations <= |atts|
    ensures r.iterations < |atts| ==> !r.outcome.ScriptExhausted?
    decreases |atts|
  {
    if IsSet(signal, clock) then Run(Stopped, Zero, 0, clock + 1)
    else if |atts| == 0 then Run(ScriptExhausted, Zero, 0, clock + 1)
    else
      var s := step(atts[0], clock + 1);
      if s.crashed then Run(Crashed, s.delta, 1, clock + 1 + s.checks)
      else
        var rest := Loop(atts[1..], step, signal, clock + 1 + s.checks);
        Run(rest.outcome, s.delta.Plus(rest.tally), 1 + rest.iterations, rest.checks)
  }

  /** The totals of a script when every attempt contributes `f` of itself. */
  function Sum(atts: seq<Attempt>, f: Attempt -> Tally): Tally {
    if |atts| == 0 then Zero else f(atts[0]).Plus(Sum(atts[1..], f))
  }

  /** One turn of the loop: the first iteration, then the loop over the rest. */
  lemma LoopTurn(atts: seq<Attempt>, step: StepFn, signal: nat, clock: nat, s: Step, rest: Run)
    requires !IsSet(signal, clock) && |atts| > 0
    requires s == step(atts[0], clock + 1) && !s.crashed
    requires rest == Loop(atts[1..], step, signal, clock + 1 + s.checks)
    ensures Loop(atts, step, signal, clock) == Run(rest.outcome, s.delta.Plus(rest.tally), 1 + rest.iterations, rest.checks)
  {
  }

  /** The loop leaves only through its head check seeing the flag set, or an
      escaping exception; it never runs past the script, and it makes at
      least one flag check per iteration, so a shutdown signalled within the
      script's first |atts| checks always stops it. */
  lemma {:induction false} LoopShape(atts: seq<Attempt>, step: StepFn, signal: nat, clock: nat, r: Run)
    requires r == Loop(atts, step, signal, clock)
    ensures r.iterations <= |atts|
    ensures r.iterations > 0 ==> !IsSet(signal, clock)
    ensures r.outcome != Crashed ==> r.checks >= clock + 1 + r.iterations
    ensures r.outcome == Crashed ==> r.iterations > 0
    ensures r.outcome == Stopped ==> IsSet(signal, r.checks - 1)
    ensures r.outcome == ScriptExhausted ==> r.iterations == |atts| && !IsSet(signal, r.checks - 1)
    ensures r.outcome == ScriptExhausted ==> clock + |atts| < signal
    decreases |atts|
  {
    if !IsSet(signal, clock) && |atts| > 0 {
      var s := step(atts[0], clock + 1);
      if !s.crashed {
        LoopShape(atts[1..], step, signal, clock + 1 + s.checks, Loop(atts[1..], step, signal, clock + 1 + s.checks));
      }
    }
  }

  /** Given that every iteration closes once, connects once exactly when the
      connect succeeds, and counts at most one error (exactly one for a failed
      connect), the run closes once per iteration, counts one connection per
      successful connect and between one error per failed connect and one
      error per iteration. */
  lemma {:induction false} LoopCounts(atts: seq<Attempt>, step: StepFn, signal: nat, clock: nat, r: Run)
    requires r == Loop(atts, step, signal, clock)
    requires forall a: Attempt, c: nat :: step(a, c).delta.closes == 1
    requires forall a: Attempt, c: nat :: step(a, c).delta.connections == (if a.Connected? then 1 else 0)
    requires forall a: Attempt, c: nat :: step(a, c).delta.errors <= 1
    requires forall a: Attempt, c: nat :: a.ConnectFail? ==> step(a, c).delta.errors == 1
    ensures r.iterations <= |atts|
    ensures r.tally.closes == r.iterations
    ensures r.tally.connections == CountConnected(atts[..r.iterations])
    ensures CountConnectFail(atts[..r.iterations]) <= r.tally.errors <= r.iterations
    decreases |atts|
  {
    LoopShape(atts, step, signal, clock, r);
    if !IsSet(signal, clock) && |atts| > 0 {
      var s := step(atts[0], clock + 1);
      if s.crashed {
        assert atts[..1][1..] == [];
      } else {
        var rest := Loop(atts[1..], step, signal, clock + 1 + s.checks);
        LoopCounts(atts[1..], step, signal, clock + 1 + s.checks, rest);
        assert atts[..1 + rest.iterations][1..] == atts[1..][..rest.iterations];
      }
    }
  }

  /** Given that every iteration's delta is `uncut` of its attempt whenever
      it neither crashes nor has the flag set by the check that follows it,
      a run that never sees the flag set totals `uncut` over the script. */
  lemma {:induction false} LoopUncut(atts: seq<Attempt>, step: StepFn, uncut: Attempt -> Tally, signal: nat, clock: nat, r: Run)
    requires r == Loop(atts, step, signal, clock)
    requires forall a: Attempt, c: nat :: !IsSet(signal, c + step(a, c).checks) && !step(a, c).crashed ==> step(a, c).delta == uncut(a)
    ensures r.outcome == ScriptExhausted ==> r.tally == Sum(atts, uncut)
    decreases |atts|
  {
    if r.outcome == ScriptExhausted && !IsSet(signal, clock) && |atts| > 0 {
      var s := step(atts[0], clock + 1);
      var rest := Loop(atts[1..], step, signal, clock + 1 + s.checks);
      LoopShape(atts[1..], step, signal, clock + 1 + s.checks, rest);
      LoopUncut(atts[1..], step, uncut, signal, clock + 1 + s.checks, rest);
      assert !IsSet(signal, clock + 1 + s.checks);
    }
  }

  /** Given that an iteration backs off exactly when its last flag check
      finds the flag clear, every iteration but the last backs off, and the
      last one too unless that check saw the flag. */
  lemma {:induction false} LoopBackoffWhileClear(atts: seq<Attempt>, step: StepFn, signal: nat, clock: nat, r: Run)
    requires r == Loop(atts, step, signal, clock)
    requires forall a: Attempt, c: nat ::
               && step(a, c).checks >= 1
               && !step(a, c).crashed
               && step(a, c).delta.backoffs == (if IsSet(signal, c + step(a, c).checks - 1) then 0 else 1)
    ensures r.tally.backoffs <= r.iterations <= r.tally.backoffs + 1
    ensures r.outcome == ScriptExhausted ==> r.tally.backoffs == r.iterations
    decreases |atts|
  {
    if !IsSet(signal, clock) && |atts| > 0 {
      var s := step(atts[0], clock + 1);
      var rest := Loop(atts[1..], step, signal, clock + 1 + s.checks);
      LoopShape(atts[1..], step, signal, clock + 1 + s.checks, rest);
      LoopBackoffWhileClear(atts[1..], step, signal, clock + 1 + s.checks, rest);
    }
  }

  /** Given that an iteration crashes exactly when its close raises, and backs
      off unless it crashes, the run crashes exactly at the first
      attempt whose close raises, and backs off after every other iteration. */
  lemma {:induction false} LoopCloseEscapes(atts: seq<Attempt>, step: StepFn, signal: nat, clock: nat, r: Run)
    requires r == Loop(atts, step, signal, clock)
    requires forall a: Attempt, c: nat :: step(a, c).crashed == a.closeRaises
    requires forall a: Attempt, c: nat :: step(a, c).delta.backoffs == (if step(a, c).crashed then 0 else 1)
    ensures r.iterations <= |atts|
    ensures r.outcome == Crashed ==> r.iterations > 0 && atts[r.iterations - 1].closeRaises
    ensures forall i :: 0 <= i < r.iterations && (r.outcome != Crashed || i < r.iterations - 1) ==> !atts[i].closeRaises
    ensures r.outcome != Crashed ==> r.tally.backoffs == r.iterations
    ensures r.outcome == Crashed ==> r.tally.backoffs == r.iterations - 1
    decreases |atts|
  {
    LoopShape(atts, step, signal, clock, r);
    if !IsSet(signal, clock) && |atts| > 0 {
      var s := step(atts[0], clock + 1);
      if !s.crashed {
        var rest := Loop(atts[1..], step, signal, clock + 1 + s.checks);
        LoopCloseEscapes(atts[1..], step, signal, clock + 1 + s.checks, rest);
        assert forall i :: 1 <= i < r.iterations ==> atts[i] == atts[1..][i - 1];
      }
    }
  }

  /** The number of the first flag check of the loop's last iteration. */
  function LastStart(atts: seq<Attempt>, step: StepFn, signal: nat, clock: nat): nat
    decreases |atts|
  {
    if IsSet(signal, clock) || |atts| == 0 then clock + 1
    else
      var s := step(atts[0], clock + 1);
      if s.crashed || |atts| == 1 || IsSet(signal, clock + 1 + s.checks) then clock + 1
      else LastStart(atts[1..], step, signal, clock + 1 + s.checks)
  }

  /** A run is the loop over all but its last attempt made, which runs out of
      script with the flag still clear, followed by the last iteration; a
      run without iterations totals nothing. */
  lemma {:induction false} LoopLastTurn(atts: seq<Attempt>, step: StepFn, signal: nat, clock: nat, r: Run)
    requires r == Loop(atts, step, signal, clock)
    ensures r.iterations <= |atts|
    ensures r.iterations == 0 ==> r.tally == Zero
    ensures r.iterations > 0 ==> Loop(atts[..r.iterations - 1], step, signal, clock).outcome == ScriptExhausted
    ensures r.iterations > 0 ==>
              r.tally == Loop(atts[..r.iterations - 1], step, signal, clock).tally
                           .Plus(step(atts[r.iterations - 1], LastStart(atts, step, signal, clock)).delta)
    decreases |atts|
  {
    LoopShape(atts, step, signal, clock, r);
    if r.iterations > 0 {
      var s := step(atts[0], clock + 1);
      var clock' := clock + 1 + s.checks;
      var rest := Loop(atts[1..], step, signal, clock');
      if !s.crashed {
        LoopLastTurn(atts[1..], step, signal, clock', rest);
      }
      if s.crashed || r.iterations == 1 {
        assert Loop(atts[..0], step, signal, clock) == Run(ScriptExhausted, Zero, 0, clock + 1);
      } else {
        LastTurnShift(atts, step, signal, clock, s, rest);
      }
    }
  }

  /** Given that every iteration not cut short by the flag or by a crash adds
      its attempt's `uncut` totals, the totals of a run are `uncut` over all
      attempts but the last made, plus what the last iteration adds. */
  lemma LoopTotals(atts: seq<Attempt>, step: StepFn, uncut: Attempt -> Tally, signal: nat, clock: nat, r: Run)
    requires r == Loop(atts, step, signal, clock)
    requires forall a: Attempt, c: nat :: !IsSet(signal, c + step(a, c).checks) && !step(a, c).crashed ==> step(a, c).delta == uncut(a)
    ensures r.iterations <= |atts|
    ensures r.iterations == 0 ==> r.tally == Zero
    ensures r.iterations > 0 ==>
              r.tally == Sum(atts[..r.iterations - 1], uncut).Plus(step(atts[r.iterations - 1], LastStart(atts, step, signal, clock)).delta)
  {
    LoopLastTurn(atts, step, signal, clock, r);
    if r.iterations > 0 {
      LoopUncut(atts[..r.iterations - 1], step, uncut, signal, clock, Loop(atts[..r.iterations - 1], step, signal, clock));
    }
  }

  /** The inductive step of `LoopLastTurn`: peeling the first iteration off
      both the run and the loop over all but its last attempt. */
  lemma LastTurnShift(atts: seq<Attempt>, step: StepFn, signal: nat, clock: nat, s: Step, rest: Run)
    requires !IsSet(signal, clock) && |atts| > 1
    requires s == step(atts[0], clock + 1) && !s.crashed
    requires rest == Loop(atts[1..], step, signal, clock + 1 + s.checks) && 1 <= rest.iterations < |atts|
    requires Loop(atts[1..][..rest.iterations - 1], step, signal, clock + 1 + s.checks).outcome == ScriptExhausted
    requires rest.tally == Loop(atts[1..][..rest.iterations - 1], step, signal, clock + 1 + s.checks).tally
                             .Plus(step(atts[1..][rest.iterations - 1], LastStart(atts[1..], step, signal, clock + 1 + s.checks)).delta)
    ensures Loop(atts[..rest.iterations], step, signal, clock).outcome == ScriptExhausted
    ensures Loop(atts, step, signal, clock).tally == Loop(atts[..rest.iterations], step, signal, clock).tally
              .Plus(step(atts[rest.iterations], LastStart(atts, step, signal, clock)).delta)
  {
    var n := rest.iterations;
    var clock' := clock + 1 + s.checks;
    var inner := Loop(atts[1..][..n - 1], step, signal, clock');
    LoopTurn(atts, step, signal, clock, s, rest);
    PrefixTurn(atts, step, signal, clock, s, n);
    assert !IsSet(signal, clock') by {
      LoopShape(atts[1..], step, signal, clock', rest);
    }
    LastStartTurn(atts, step, signal, clock, s);
    var ls := LastStart(atts, step, signal, clock);
    assert ls == LastStart(atts[1..], step, signal, clock');
    assert atts[1..][n - 1] == atts[n];
    assert step(atts[1..][n - 1], LastStart(atts[1..], step, signal, clock')) == step(atts[n], ls);
    PlusShift(s.delta, rest.tally, inner.tally, step(atts[n], ls).delta);
  }

  /** Moving the last summand out of the second argument of `Plus`. */
  lemma PlusShift(a: Tally, b: Tally, c: Tally, d: Tally)
    requires b == c.Plus(d)
    ensures a.Plus(b) == a.Plus(c).Plus(d)
  {
  }

  /** `LoopTurn` for the first `n` attempts. */
  lemma PrefixTurn(atts: seq<Attempt>, step: StepFn, signal: nat, clock: nat, s: Step, n: nat)
    requires !IsSet(signal, clock) && 1 <= n <= |atts|
    requires s == step(atts[0], clock + 1) && !s.crashed
    ensures var inner := Loop(atts[1..][..n - 1], step, signal, clock + 1 + s.checks);
            Loop(atts[..n], step, signal, clock) == Run(inner.outcome, s.delta.Plus(inner.tally), 1 + inner.iterations, inner.checks)
  {
    var p := atts[..n];
    assert p[0] == atts[0] && p[1..] == atts[1..][..n - 1];
    LoopTurn(p, step, signal, clock, s, Loop(p[1..], step, signal, clock + 1 + s.checks));
  }

  /** An iteration that neither crashes nor is followed by a set head check
      is not the last: the last iteration starts within the rest. */
  lemma LastStartTurn(atts: seq<Attempt>, step: StepFn, signal: nat, clock: nat, s: Step)
    requires !IsSet(signal, clock) && |atts| > 1
    requires s == step(atts[0], clock + 1) && !s.crashed && !IsSet(signal, clock + 1 + s.checks)
    ensures LastStart(atts, step, signal, clock) == LastStart(atts[1..], step, signal, clock + 1 + s.checks)
  {
  }

  /** Given that no iteration crashes, neither does the run. */
  lemma {:induction false} LoopNeverCrashes(atts: seq<Attempt>, step: StepFn, signal: nat, clock: nat, r: Run)
    requires r == Loop(atts, step, signal, clock)
    requires forall a: Attempt, c: nat :: !step(a, c).crashed
    ensures r.outcome != Crashed
    decreases |atts|
  {
    if !IsSet(signal, clock) && |atts| > 0 {
      var s := step(atts[0], clock + 1);
      LoopNeverCrashes(atts[1..], step, signal, clock + 1 + s.checks, Loop(atts[1..], step, signal, clock + 1 + s.checks));
    }
  }

  /** Once the loop has ended, what the transport would have done on later
      attempts is irrelevant: nothing is attempted after the run ends. */
  lemma {:induction false} LoopNoReconnect(atts: seq<Attempt>, more: seq<Attempt>, step: StepFn, signal: nat, clock: nat, r: Run)
    requires r == Loop(atts, step, signal, clock) && r.outcome != ScriptExhausted
    ensures r.iterations <= |atts|
    ensures Loop(atts[..r.iterations] + more, step, signal, clock) == r
    decreases |atts|
  {
    LoopShape(atts, step, signal, clock, r);
    if !IsSet(signal, clock) {
      var atts' := atts[..r.iterations] + more;
      assert atts'[0] == atts[0];
      var s := step(atts[0], clock + 1);
      if !s.crashed {
        var rest := Loop(atts[1..], step, signal, clock + 1 + s.checks);
        assert atts'[1..] == atts[1..][..rest.iterations] + more;
        LoopNoReconnect(atts[1..], more, step, signal, clock + 1 + s.checks, rest);
      }
    }
  }

  /** Given that no iteration depends on whether its close raises, neither
      does the run. */
  lemma {:induction false} LoopIgnoresClose(atts: seq<Attempt>, step: StepFn, signal: nat, clock: nat)
    requires forall a: Attempt, c: nat :: step(a.(closeRaises := false), c) == step(a, c)
    ensures Loop(CloseSucceeds(atts), step, signal, clock) == Loop(atts, step, signal, clock)
    decreases |atts|
  {
    if !IsSet(signal, clock) && |atts| > 0 {
      var cs := CloseSucceeds(atts);
      assert cs[1..] == CloseSucceeds(atts[1..]);
      var s := step(atts[0], clock + 1);
      LoopIgnoresClose(atts[1..], step, signal, clock + 1 + s.checks);
    }
  }
}

=== FILE: wrappers.dfy ===
/** The optional-value datatype used for payload lookups that may raise. */
module Wrappers {

  datatype Option<+T> = None | Some(value: T) {

    /** Returns the value held by Some, or `default` for None. */
    function GetOr(default: T): T {
      match this
      case Some(v) => v
      case None => default
    }
  }
}
